=== FILE: README.md ===
# blockchain_maker ledger, modelled in Dafny

This project models the core of `blockchain_maker`, a single-writer append-only
ledger. The ledger keeps an ordered chain of signed blocks in memory. Each
block is also stored as its own numbered JSON record (`1.json`, `2.json`, …)
in a block folder. The model covers:

- the block constructor (`Block::new`): the content string
  `timestamp:data:previous_hash:block_number:reward`, the content hash, the
  signature over the content hash, and the block hash over
  `contents:content_hash`;
- the reward schedule (`calculate_reward`): the base reward shifted right once
  per elapsed halving interval;
- the previous-hash lookup (`get_block_hash_from_file`), with its sentinel
  `"0"` for an empty folder;
- `Blockchain::new` and `add_block`: numbering taken from the folder's record
  count, writing the record before pushing the block;
- `validate_chain`: the three checks on every block from the second on;
- `load_chain_from_disk`: reading records 1, 2, 3, … up to the first missing
  number.

The outside world is a set of parameters:

- **Crypto** (`Crypto.Engine`). SHA-256 with hex rendering, public-key derivation,
  ECDSA sign and ECDSA verify are four function values. The hypothesis `Crypto.Sound`
  says that a fresh signature verifies under the key's PEM public key. `sign`
  asserts this only for the in-memory key; `Sound` also assumes that the PEM
  text parses back to a key that verifies.
- **JSON** (`Storage.Codec`). serde serialisation, deserialisation and the
  `block_hash` field lookup are three partial functions. The hypothesis
  `Storage.Faithful` says that encoding succeeds and reads back.
- **Environment** (`Ledger.Env`). The clock reading, the freshly generated
  private key, and whether creating the folder, counting its files and
  writing the record succeed are inputs to each `add_block` call.
- **Block folder** (`Storage.Folder`). The folder is missing, or present with
  a map from record number to record text.

Modules follow the source's structure. `Numeric` holds fixed-width integers,
`>>` and `format!("{}")`. `Crypto` holds `sign`. `Blocks` holds `Block::new`.
`Rewards` holds `calculate_reward`. `Storage` holds `get_block_hash_from_file`.
`Ledger` holds `add_block`. `Validation` holds `validate_chain`. `Loading`
holds `load_chain_from_disk`. `Properties` holds the end-to-end facts about a
ledger built from an empty folder.

## Behaviour worth knowing

- **Reward at block H.** Block numbers start at 1 and the era is
  `block_number / halving_interval`. So the first era holds only blocks
  `1 .. H-1`, and block `H` already earns half the base reward. With base 50
  and interval 2, blocks 1–5 earn 50, 25, 25, 12, 12 (see
  `Rewards.RewardScenario`). The comment at src/lib.rs:143 speaks of halving
  every 65536 blocks, but the interval is the configured one.
- **Missing folder.** `validate_chain` returns `false` when the block folder
  does not exist, because the file count fails. It returns `true` for any
  chain when the folder exists and is empty.
- **Unchecked fields.** The genesis block is never checked, apart from its
  `block_hash` being the link of block 2 (`Validation.GenesisUnchecked`). No
  `block_hash` is ever recomputed, so the last block's one can be changed
  freely (`Validation.TipBlockHashUnchecked`). Any other block's `block_hash`
  is caught by the next block's link (`Validation.AlteredInnerBlockHashRejected`).
  Block numbers are never checked to be consecutive. Changing the `data` or
  the `block_number` of a later block is accepted only if the digest maps the
  two different content strings to the same value
  (`Validation.AlteredDataNeedsCollision`, `Validation.AlteredNumberNeedsCollision`).
- **Rust panics.** A zero halving interval panics in Rust, and so does a shift
  amount of 64 or more in debug builds. The model turns both into the precondition
  `Rewards.RewardDefined` rather than an error value.

## Model

| member | source | states |
|---|---|---|
| Numeric.ShiftRight | src/lib.rs:144 | `x >> k` on a u64 for a shift below 64 never exceeds `x` |
| Numeric.ShiftRightStep | src/lib.rs:144 | shifting one place further halves the previous result (integer halving) |
| Numeric.ShiftRightAntitone | src/lib.rs:144 | a larger shift amount never gives a larger value |
| Numeric.Decimal | src/lib.rs:98 | `format!("{}", x)` is non-empty, all digits except a leading '-', and starts with '-' exactly when `x` is negative |
| Numeric.DecimalRoundTrip | src/lib.rs:98 | the decimal text of any integer reads back as that integer, so equal texts mean equal numbers |
| Crypto.Sign | src/lib.rs:48-80 | returns the public key of the fresh private key, and the signature verifies under it for the message whenever the engine is sound (line 59 asserts this for the in-memory key; `Sound` also covers the PEM round trip) |
| Blocks.NewBlock | src/lib.rs:96-119 | the block carries the given timestamp, data, previous hash, number and reward; its content hash is the digest of the content string, its block hash the digest of `contents:content_hash`, and under a sound engine its signature verifies |
| Blocks.ContentsAmbiguous | src/lib.rs:98 | for any data, middle part and previous hash, `data + ":" + middle` with the previous hash gives the same content string as `data` with `middle + ":" + previous_hash` |
| Blocks.DistinctBlocksShareDigests | src/lib.rs:96-119 | for any such split, the two blocks built from the same clock reading and key differ in data and in previous hash yet carry the same content hash, block hash and signature |
| Blocks.ContentsDetermineData | src/lib.rs:98 | with all other fields fixed, equal content strings mean equal data |
| Blocks.ContentsDetermineNumber | src/lib.rs:98 | with all other fields fixed, equal content strings mean equal block numbers |
| Rewards.CalculateReward | src/lib.rs:142-145 | the reward never exceeds the base reward, and equals it for every block number below the halving interval |
| Rewards.RewardInEra | src/lib.rs:144 | every block number in `[k*H, (k+1)*H)` earns the base reward shifted `k` times |
| Rewards.RewardHalvesEachInterval | src/lib.rs:144 | moving one interval further halves the reward |
| Rewards.RewardNonIncreasing | src/lib.rs:144 | a later block never earns more than an earlier one |
| Rewards.RewardScenario | src/lib.rs:142-145 | base 50, interval 2: blocks 1 to 5 earn 50, 25, 25, 12, 12 |
| Storage.PreviousHash | src/lib.rs:20-33 | an empty folder gives the sentinel "0"; otherwise a present record gives its `block_hash` field (or nothing when that field cannot be read), and a missing record gives nothing |
| Ledger.AddBlock | src/lib.rs:147-178 | the configuration is kept; at most one record is added; every failure leaves the chain and the records unchanged; a missing folder that cannot be created is exactly the directory failure; a failed count on an existing or created folder is exactly the count failure; a failed write is a failure; success adds exactly one block |
| Ledger.AddBlockAppends | src/lib.rs:147-178 | on success the old chain is a prefix of the new one. The new block carries number count+1, the caller's data and clock reading, the previous hash read from record `count`, and that number's reward. Its digests hold, and its signature holds under a sound engine. The folder gains exactly record count+1, holding the block's serialisation. Success is guaranteed when serialisation is faithful, the folder exists or can be created, the count succeeds, the previous hash can be read and the write succeeds |
| Ledger.MirroredPreviousHash | src/lib.rs:20-23 | on a folder that mirrors the chain, the record count is the chain length, and the previous hash read is "0" for an empty chain and the last block's hash otherwise |
| Ledger.AddBlockKeepsMirror | src/lib.rs:147-178 | `add_block` keeps record `i` equal to the serialisation of block `i`, and on such a folder, with faithful serialisation, it succeeds whenever the folder exists or can be created, the count succeeds and the write succeeds |
| Ledger.AddBlockKeepsConsistent | src/lib.rs:147-178 | `add_block` keeps the chain mirrored, linked, numbered 1..n with the scheduled rewards, and self-consistent |
| Ledger.Run | src/lib.rs:147-178 | a sequence of `add_block` calls keeps the reward configuration and adds at most one block per call |
| Validation.ValidateChain | src/lib.rs:181-226 | answers false for a missing folder, true for an empty folder, and otherwise true exactly when every block from the second on links to its predecessor's block hash, recomputes its content hash and verifies its signature |
| Validation.EmptyFolderAcceptsAnyChain | src/lib.rs:186-188 | an empty folder makes any chain valid |
| Validation.GenesisUnchecked | src/lib.rs:190 | replacing the genesis block by any block with the same block hash keeps an accepted chain accepted |
| Validation.TipBlockHashUnchecked | src/lib.rs:190-221 | the last block's block hash can be replaced by anything without the chain being rejected |
| Validation.AlteredLinkRejected | src/lib.rs:192-194 | changing the previous hash of any block after the genesis block makes an accepted chain rejected |
| Validation.AlteredContentHashRejected | src/lib.rs:197-205 | changing the stored content hash of any block after the genesis block makes an accepted chain rejected |
| Validation.AlteredDataNeedsCollision | src/lib.rs:197-205 | changed data of a later block is accepted only if the digest maps two different content strings to the same value |
| Validation.AlteredInnerBlockHashRejected | src/lib.rs:192-194 | changing the stored block hash of any block but the last makes an accepted chain rejected, through the next block's link |
| Validation.AlteredNumberNeedsCollision | src/lib.rs:197-205 | a changed block number of a later block is accepted only if the digest maps two different content strings to the same value |
| Loading.ReadFrom | src/lib.rs:233-246 | reading from number `i` yields the deserialised records `i, i+1, …` up to the first missing number, or fails at the first record that does not deserialise, all earlier ones deserialising |
| Loading.LoadChain | src/lib.rs:230-252 | `NoBlocksFound` exactly when record 1 is missing; success returns at least one block, block `k` being record `k+1` deserialised, stops before the first missing number, and copies the configuration |
| Loading.LoadChainFromDisk | src/lib.rs:230-252 | the loop over record numbers computes exactly `LoadChain` |
| Loading.LoadAfterAppends | src/lib.rs:230-252 | loading a folder that mirrors a non-empty chain gives back that chain with the given configuration |
| Loading.LoadIgnoresRecordsAfterGap | src/lib.rs:233-237 | two folders that agree up to a number missing from both load the same way, whatever follows the gap |
| Properties.RunKeepsConsistent | src/lib.rs:147-178 | any sequence of `add_block` calls keeps the ledger mirrored, linked, numbered and self-consistent |
| Properties.RunAllSucceed | src/lib.rs:147-178 | when every call can create the folder, count and write, each call adds exactly one block and the folder exists afterwards |
| Properties.BuiltChainValidates | src/lib.rs:133-252 | from `Blockchain::new` and an empty or missing folder, any sequence of `add_block` calls yields a chain that is linked from the sentinel, numbered 1..n with the scheduled rewards, and has valid digests and signatures. `validate_chain` accepts it whenever the folder exists. When every call can create the folder, count and write, the chain has one block per call and is accepted. `load_chain_from_disk` gives back any non-empty result |

## Left out

- SHA-256, hex rendering, secp256k1 key generation, ECDSA and PEM encoding are function parameters (`Crypto.Engine`). Their cryptographic strength is not modelled.
- The private-key archive that `sign` writes under `my_keys/`, including its directory creation and panics, is not modelled. It is write-only, and nothing in the core reads it back.
- `println!` output is not modelled.
- `Utc::now()` and `EcKey::generate` are nondeterministic. They are the `now` and `key` inputs of `Ledger.Env`.
- ECDSA signing in openssl draws a random nonce, but `Crypto.Engine.sign` is a function of key and message. The signing randomness is folded into the `key` input, so two signings with the same key and message give the same signature (which `Blocks.DistinctBlocksShareDigests` relies on for its equal-signature clause).
- `validate_chain` also returns `false` when counting an existing folder fails. The model lets only a missing folder fail the count.
- `count_files_in_folder` is not modelled separately. The folder is assumed to hold only numbered block records, so the count is the number of records.
- Crypto.Sign: openssl failures in `sign` (the `unwrap`s at src/lib.rs:49-61 and 78) panic in Rust. The engine's functions are total, so these panics are not modelled.
- Ledger.AddBlock: `get_block_hash_from_file` lists the folder a second time (src/lib.rs:21). That listing is assumed to succeed with the same count as the first one at src/lib.rs:152. A failure there would surface as the previous-hash error, which the model does not produce on that path.
- The `DirBuilder` failure just before the write in `add_block` is folded into the write flag.
- Ledger.AddBlock: its `RewardDefined` precondition also excludes a zero halving interval, or a block number whose era is 64 or more, on the paths where Rust returns an error before it computes the reward (a failed directory creation, count or previous-hash read, src/lib.rs:150-154, all come before the reward at src/lib.rs:155).
- A read failure on an existing record is not modelled: a present record is always readable.
- A failed `fs::write` is modelled as leaving the folder unchanged. A partially written file is not modelled.
- serde_json is a parameter (`Storage.Codec`). The JSON format itself is not modelled.
- Rewards.CalculateReward: a zero halving interval and a shift of 64 or more panic in Rust. They are excluded by a precondition instead. Rust release builds would mask the shift amount.
- Ledger.AddBlock: `count + 1` wrapping past `u64::MAX` is excluded by the same `RewardDefined` precondition, which bounds the block number below 2^64.
- Loading.LoadChainFromDisk: the loop counter `i` is an `i32` in Rust. Overflow after 2^31 records is not modelled.
- Loading.LoadChain: Rust reports a deserialisation failure as a message only. The model also carries the failing record number.
- Validation.ValidateChain: a public key that fails to parse as PEM, or a verifier that cannot be built, returns `false` in Rust. Both are folded into the engine's `verify` returning `false`.
- Blocks.NewBlock: `Block::new` returns a `Result` but has no path to `Err`, so the model returns the block directly.
- `Ledger.Run` ignores `add_block` results. The command-line driver in `main.rs` and its argument handling are not modelled.
- Concurrency is not modelled: two writers numbering from the same count could race.
- `Blockchain::new` is modelled as `Ledger.New`. It only builds a value, so it carries no contract of its own and is covered through `Properties.BuiltChainValidates`.

=== FILE: block.dfy ===
/**
 A single ledger entry and its construction: the content string, the two
 chained digests, and the signature over the content digest.
 */
module Blocks {
  import opened Numeric
  import opened Crypto

  /** Field order follows the stored record; note that the content string
      puts `blockNumber` before `reward`. */
  datatype Block = Block(
    timestamp: i64,
    data: string,
    previousHash: string,
    reward: u64,
    blockNumber: u64,
    contentHash: string,
    signature: Bytes,
    publicKey: Bytes,
    blockHash: string)

  /** The string both digests start from: `timestamp:data:previous:number:reward`.
      `data` and `previousHash` may themselves contain ':', so this string
      does not determine the fields it was built from. */
  function Contents(timestamp: i64, data: string, previousHash: string, blockNumber: u64, reward: u64): string
  {
    Decimal(timestamp as int) + ":" + data + ":" + previousHash + ":" + Decimal(blockNumber as int) + ":" + Decimal(reward as int)
  }

  function ContentsOf(b: Block): string {
    Contents(b.timestamp, b.data, b.previousHash, b.blockNumber, b.reward)
  }

  /** The content digest recomputes from the block's own fields. */
  predicate ContentHashHolds(e: Engine, b: Block) {
    e.digest(ContentsOf(b)) == b.contentHash
  }

  /** The embedded signature verifies under the embedded public key for the content digest. */
  predicate SignatureHolds(e: Engine, b: Block) {
    e.verify(b.publicKey, b.contentHash, b.signature)
  }

  /** The block digest is the digest of `contents:content_hash`. */
  predicate BlockHashHolds(e: Engine, b: Block) {
    b.blockHash == e.digest(ContentsOf(b) + ":" + b.contentHash)
  }

  predicate SelfConsistent(e: Engine, b: Block) {
    ContentHashHolds(e, b) && SignatureHolds(e, b) && BlockHashHolds(e, b)
  }

  /** `Block::new`. The clock reading `now` and the freshly generated private
      key `key` are inputs. The Rust constructor returns `Result` but has no
      path to `Err`, so the model returns the block itself. */
  function NewBlock(e: Engine, now: i64, key: Bytes, data: string, previousHash: string, blockNumber: u64, reward: u64): (b: Block)
    ensures b.timestamp == now && b.data == data && b.previousHash == previousHash
    ensures b.blockNumber == blockNumber && b.reward == reward
    ensures b.publicKey == e.publicKeyOf(key)
    ensures ContentHashHolds(e, b) && BlockHashHolds(e, b)
    ensures Sound(e) ==> SignatureHolds(e, b)
  {
    var contents := Contents(now, data, previousHash, blockNumber, reward);
    var contentHash := e.digest(contents);
    var (signature, publicKey) := Sign(e, key, contentHash);
    var blockHash := e.digest(contents + ":" + contentHash);
    Block(now, data, previousHash, reward, blockNumber, contentHash, signature, publicKey, blockHash)
  }

  /** The ':' delimiter is ambiguous: moving a ':' between `data` and
      `previousHash` leaves the content string unchanged. */
  lemma ContentsAmbiguous(timestamp: i64, data: string, middle: string, previousHash: string, blockNumber: u64, reward: u64)
    ensures Contents(timestamp, data + ":" + middle, previousHash, blockNumber, reward)
         == Contents(timestamp, data, middle + ":" + previousHash, blockNumber, reward)
  {
    var t, n, r := Decimal(timestamp as int), Decimal(blockNumber as int), Decimal(reward as int);
    var whole := t + ":" + data + ":" + middle + ":" + previousHash + ":" + n + ":" + r;
    assert Contents(timestamp, data + ":" + middle, previousHash, blockNumber, reward) == whole;
    assert Contents(timestamp, data, middle + ":" + previousHash, blockNumber, reward) == whole;
  }

  /** Hence two blocks built from different data and different previous
      hashes carry identical digests and an identical signature. */
  lemma DistinctBlocksShareDigests(e: Engine, now: i64, key: Bytes, data: string, middle: string, previousHash: string,
                                   blockNumber: u64, reward: u64)
    ensures var b1 := NewBlock(e, now, key, data + ":" + middle, previousHash, blockNumber, reward);
            var b2 := NewBlock(e, now, key, data, middle + ":" + previousHash, blockNumber, reward);
            && b1.data != b2.data && b1.previousHash != b2.previousHash
            && b1.contentHash == b2.contentHash && b1.blockHash == b2.blockHash
            && b1.signature == b2.signature
  {
    ContentsAmbiguous(now, data, middle, previousHash, blockNumber, reward);
    assert data + ":" + middle != data by { assert |data + ":" + middle| != |data|; }
    assert middle + ":" + previousHash != previousHash by { assert |middle + ":" + previousHash| != |previousHash|; }
  }

  /** A string is recovered from its place between a fixed prefix and a
      fixed suffix. */
  lemma MiddleDetermined(prefix: string, x: string, y: string, suffix: string)
    requires prefix + x + suffix == prefix + y + suffix
    ensures x == y
  {
    var w := prefix + x + suffix;
    assert |x| == |y|;
    assert x == w[|prefix|..|prefix| + |x|];
    assert y == (prefix + y + suffix)[|prefix|..|prefix| + |y|];
  }

  /** With every other field fixed, the content string does determine `data`. */
  lemma ContentsDetermineData(timestamp: i64, d1: string, d2: string, previousHash: string, blockNumber: u64, reward: u64)
    requires Contents(timestamp, d1, previousHash, blockNumber, reward) == Contents(timestamp, d2, previousHash, blockNumber, reward)
    ensures d1 == d2
  {
    var prefix := Decimal(timestamp as int) + ":";
    var suffix := ":" + previousHash + ":" + Decimal(blockNumber as int) + ":" + Decimal(reward as int);
    assert Contents(timestamp, d1, previousHash, blockNumber, reward) == prefix + d1 + suffix;
    assert Contents(timestamp, d2, previousHash, blockNumber, reward) == prefix + d2 + suffix;
    MiddleDetermined(prefix, d1, d2, suffix);
  }

  /** With every other field fixed, the content string determines the block
      number: decimal rendering reads back. */
  lemma ContentsDetermineNumber(timestamp: i64, data: string, previousHash: string, n1: u64, n2: u64, reward: u64)
    requires Contents(timestamp, data, previousHash, n1, reward) == Contents(timestamp, data, previousHash, n2, reward)
    ensures n1 == n2
  {
    var prefix := Decimal(timestamp as int) + ":" + data + ":" + previousHash + ":";
    var suffix := ":" + Decimal(reward as int);
    assert Contents(timestamp, data, previousHash, n1, reward) == prefix + Decimal(n1 as int) + suffix;
    assert Contents(timestamp, data, previousHash, n2, reward) == prefix + Decimal(n2 as int) + suffix;
    MiddleDetermined(prefix, Decimal(n1 as int), Decimal(n2 as int), suffix);
    DecimalRoundTrip(n1 as int);
    DecimalRoundTrip(n2 as int);
  }
}

=== FILE: crypto.dfy ===
/**
 The digest and signature engine, taken as parameters: the ledger only ever
 calls these four operations, and the one fact it relies on is that a
 signature made with a private key verifies under that key's public key.
 */
module Crypto {
  import opened Numeric

  type Bytes = seq<byte>

  /** `digest` is SHA-256 rendered as lower-case hex (`format!("{:x}", ..)`);
      `publicKeyOf` maps a secp256k1 private key to its PEM public key;
      `sign` is ECDSA over SHA-256; `verify` parses the PEM key and checks the
      signature, reporting any parse or verifier failure as `false`. */
  datatype Engine = Engine(
    digest: string -> string,
    publicKeyOf: Bytes -> Bytes,
    sign: (Bytes, string) -> Bytes,
    verify: (Bytes, string, Bytes) -> bool)

  /** A freshly made signature verifies under the key's PEM public key.
      `sign` asserts this only for the in-memory key; `Sound` also assumes
      that the PEM text parses back to a key that verifies. */
  ghost predicate Sound(e: Engine) {
    forall key, message :: e.verify(e.publicKeyOf(key), message, e.sign(key, message))
  }

  /** `sign(message, reward, block_number)`: signs `message` with the freshly
      generated private key `key` and returns (signature, public key). The
      reward and block number only name the private-key archive file, which
      is write-only and not modelled. */
  function Sign(e: Engine, key: Bytes, message: string): (r: (Bytes, Bytes))
    ensures r.1 == e.publicKeyOf(key)
    ensures Sound(e) ==> e.verify(r.1, message, r.0)
  {
    (e.sign(key, message), e.publicKeyOf(key))
  }
}

=== FILE: ledger.dfy ===
/**
 The chain manager: the in-memory chain with its reward configuration, and
 `add_block`, which numbers, links, builds, stores and appends a block.
 */
module Ledger {
  import opened Numeric
  import opened Results
  import opened Crypto
  import opened Blocks
  import opened Rewards
  import opened Storage

  /** `Blockchain`: the in-memory chain plus the base reward and halving
      interval the schedule uses. */
  datatype Blockchain = Blockchain(chain: seq<Block>, baseReward: u64, halvingInterval: u64)

  /** `Blockchain::new`: an empty chain; the store is not touched. */
  function New(baseReward: u64, halvingInterval: u64): Blockchain {
    Blockchain([], baseReward, halvingInterval)
  }

  /** What the world supplies to one `add_block` call: the clock reading,
      the freshly generated private key (which also stands for the signing
      randomness), and whether creating the block folder, counting its files
      and writing the record succeed. */
  datatype Env = Env(now: i64, key: Bytes, mkdirOk: bool, countOk: bool, writeOk: bool)

  /** The failures `add_block` reports, one per `?` in its body that the model
      keeps. */
  datatype AddError = DirectoryFailed | CountFailed | PreviousHashFailed | SerializeFailed | WriteFailed

  datatype Status = Appended | Failed(error: AddError)

  /** The chain and folder after an `add_block` call, and its result. */
  datatype Step = Step(chain: Blockchain, folder: Folder, status: Status)

  /** `add_block`. The next number is one more than the number of records in
      the folder, the previous hash is read from the record with the current
      count as its number, and the block is written before it is pushed, so
      every failure leaves the in-memory chain as it was. The chain itself is
      never consulted. */
  function AddBlock(bc: Blockchain, folder: Folder, data: string, env: Env, e: Engine, c: Codec): (r: Step)
    requires RewardDefined(bc.halvingInterval, |Records(folder)| + 1)
    ensures r.chain.baseReward == bc.baseReward && r.chain.halvingInterval == bc.halvingInterval
    ensures |Records(r.folder)| <= |Records(folder)| + 1
    ensures r.status.Failed? ==> r.chain == bc && Records(r.folder) == Records(folder)
    ensures folder.Absent? && !env.mkdirOk <==> r.status == Failed(DirectoryFailed)
    ensures (folder.Present? || env.mkdirOk) ==> r.folder.Present?
    ensures (folder.Present? || env.mkdirOk) && !env.countOk <==> r.status == Failed(CountFailed)
    ensures !env.writeOk ==> r.status.Failed?
    ensures r.status.Appended? ==> |r.chain.chain| == |bc.chain| + 1 && r.folder.Present?
  {
    if folder.Absent? && !env.mkdirOk then Step(bc, folder, Failed(DirectoryFailed))
    else if !env.countOk then Step(bc, Present(Records(folder)), Failed(CountFailed))
    else
      var records := Records(folder);
      var count := |records|;
      match PreviousHash(records, count, c)
      case None => Step(bc, Present(records), Failed(PreviousHashFailed))
      case Some(previousHash) =>
        var number := (count + 1) as u64;
        var reward := CalculateReward(bc.baseReward, bc.halvingInterval, number);
        var block := NewBlock(e, env.now, env.key, data, previousHash, number, reward);
        match c.encode(block)
        case None => Step(bc, Present(records), Failed(SerializeFailed))
        case Some(text) =>
          if !env.writeOk then Step(bc, Present(records), Failed(WriteFailed))
          else Step(bc.(chain := bc.chain + [block]), Present(records[count + 1 := text]), Appended)
  }

  /** What a successful `add_block` produced: the chain gains exactly one
      block at its end and the folder exactly record `n+1`, where `n` is the
      number of records before the call. The block carries number `n+1`, the
      previous hash read from record `n` (or the sentinel), the scheduled
      reward, the caller's data, and digests and a signature that hold. The
      call succeeds whenever the folder exists or can be created, the
      previous hash can be read, serialisation succeeds and the write does. */
  lemma AddBlockAppends(bc: Blockchain, folder: Folder, data: string, env: Env, e: Engine, c: Codec)
    requires RewardDefined(bc.halvingInterval, |Records(folder)| + 1)
    ensures var r := AddBlock(bc, folder, data, env, e, c);
            r.status.Appended? ==>
              var n := |Records(folder)|;
              && r.chain.chain[..|bc.chain|] == bc.chain
              && var b := r.chain.chain[|bc.chain|];
                 && b.blockNumber as int == n + 1
                 && b.data == data && b.timestamp == env.now
                 && b.publicKey == e.publicKeyOf(env.key)
                 && PreviousHash(Records(folder), n, c) == Some(b.previousHash)
                 && b.reward == CalculateReward(bc.baseReward, bc.halvingInterval, b.blockNumber)
                 && ContentHashHolds(e, b) && BlockHashHolds(e, b)
                 && (Sound(e) ==> SignatureHolds(e, b))
                 && c.encode(b).Some?
                 && r.folder == Present(Records(folder)[n + 1 := c.encode(b).value])
    ensures (&& Faithful(c) && (folder.Present? || env.mkdirOk) && env.countOk && env.writeOk
             && PreviousHash(Records(folder), |Records(folder)|, c).Some?)
            ==> AddBlock(bc, folder, data, env, e, c).status.Appended?
  {
  }

  /** The folder holds exactly records `1 .. |chain|`, record `i` being the
      serialisation of `chain[i-1]`. */
  ghost predicate Mirrors(chain: seq<Block>, records: map<nat, string>, c: Codec) {
    && records.Keys == Positions(|chain|)
    && forall i :: 0 <= i < |chain| ==> c.encode(chain[i]) == Some(records[i + 1])
  }

  /** The genesis block points at the sentinel and every later block at the
      block hash of its predecessor. */
  predicate Linked(chain: seq<Block>) {
    && (|chain| > 0 ==> chain[0].previousHash == "0")
    && forall i :: 1 <= i < |chain| ==> chain[i].previousHash == chain[i - 1].blockHash
  }

  /** Block `i` (0-based) carries number `i+1` and that number's reward. */
  predicate Numbered(bc: Blockchain) {
    forall i :: 0 <= i < |bc.chain| ==>
      && bc.chain[i].blockNumber as int == i + 1
      && RewardDefined(bc.halvingInterval, i + 1)
      && bc.chain[i].reward == CalculateReward(bc.baseReward, bc.halvingInterval, bc.chain[i].blockNumber)
  }

  predicate AllSelfConsistent(e: Engine, chain: seq<Block>) {
    forall i :: 0 <= i < |chain| ==> SelfConsistent(e, chain[i])
  }

  /** What a sequence of `add_block` calls from an empty folder maintains. */
  ghost predicate Consistent(bc: Blockchain, folder: Folder, e: Engine, c: Codec) {
    && Mirrors(bc.chain, Records(folder), c)
    && Linked(bc.chain)
    && Numbered(bc)
    && AllSelfConsistent(e, bc.chain)
  }

  /** On a folder that mirrors the chain, the previous hash `add_block` reads
      is the sentinel for an empty chain and the last block's hash otherwise,
      and there is one record per block. */
  lemma MirroredPreviousHash(chain: seq<Block>, records: map<nat, string>, c: Codec)
    requires Mirrors(chain, records, c) && Faithful(c)
    ensures |records| == |chain|
    ensures |chain| == 0 ==> PreviousHash(records, |records|, c) == Some("0")
    ensures |chain| > 0 ==> PreviousHash(records, |records|, c) == Some(chain[|chain| - 1].blockHash)
  {
    assert |records| == |records.Keys|;
    if |chain| > 0 {
      var n := |chain|;
      assert n in records.Keys;
      assert c.encode(chain[n - 1]) == Some(records[n]);
    }
  }

  /** Appending a block together with its serialisation as the next record
      keeps the folder mirroring the chain. */
  lemma MirrorsExtend(chain: seq<Block>, records: map<nat, string>, c: Codec, b: Block, text: string)
    requires Mirrors(chain, records, c) && c.encode(b) == Some(text)
    ensures Mirrors(chain + [b], records[|chain| + 1 := text], c)
  {
    var chain', records' := chain + [b], records[|chain| + 1 := text];
    assert records'.Keys == records.Keys + {|chain| + 1};
    assert records'.Keys == Positions(|chain'|);
    forall i | 0 <= i < |chain'|
      ensures c.encode(chain'[i]) == Some(records'[i + 1])
    {
      if i < |chain| {
        assert chain'[i] == chain[i];
      }
    }
  }

  /** Appending a block that points at the last block's hash (or at "0" on
      an empty chain) keeps the chain linked. */
  lemma LinkedExtend(chain: seq<Block>, b: Block)
    requires Linked(chain)
    requires |chain| == 0 ==> b.previousHash == "0"
    requires |chain| > 0 ==> b.previousHash == chain[|chain| - 1].blockHash
    ensures Linked(chain + [b])
  {
    var chain' := chain + [b];
    forall i | 1 <= i < |chain'|
      ensures chain'[i].previousHash == chain'[i - 1].blockHash
    {
      if i < |chain| {
        assert chain'[i] == chain[i] && chain'[i - 1] == chain[i - 1];
      }
    }
  }

  /** Appending a block with the next number and that number's reward keeps
      the chain numbered. */
  lemma NumberedExtend(bc: Blockchain, b: Block)
    requires Numbered(bc)
    requires b.blockNumber as int == |bc.chain| + 1 && RewardDefined(bc.halvingInterval, |bc.chain| + 1)
    requires b.reward == CalculateReward(bc.baseReward, bc.halvingInterval, b.blockNumber)
    ensures Numbered(bc.(chain := bc.chain + [b]))
  {
    var chain' := bc.chain + [b];
    forall i | 0 <= i < |chain'|
      ensures chain'[i].blockNumber as int == i + 1
      ensures RewardDefined(bc.halvingInterval, i + 1)
      ensures chain'[i].reward == CalculateReward(bc.baseReward, bc.halvingInterval, chain'[i].blockNumber)
    {
      if i < |bc.chain| {
        assert chain'[i] == bc.chain[i];
      }
    }
  }

  lemma AllSelfConsistentExtend(e: Engine, chain: seq<Block>, b: Block)
    requires AllSelfConsistent(e, chain) && SelfConsistent(e, b)
    ensures AllSelfConsistent(e, chain + [b])
  {
    var chain' := chain + [b];
    forall i | 0 <= i < |chain'|
      ensures SelfConsistent(e, chain'[i])
    {
      if i < |chain| {
        assert chain'[i] == chain[i];
      }
    }
  }

  /** `add_block` keeps the folder mirroring the chain, and on such a folder
      it succeeds whenever the folder can be created and the write succeeds. */
  lemma AddBlockKeepsMirror(bc: Blockchain, folder: Folder, data: string, env: Env, e: Engine, c: Codec)
    requires Mirrors(bc.chain, Records(folder), c) && Faithful(c)
    requires RewardDefined(bc.halvingInterval, |Records(folder)| + 1)
    ensures Mirrors(AddBlock(bc, folder, data, env, e, c).chain.chain, Records(AddBlock(bc, folder, data, env, e, c).folder), c)
    ensures (folder.Present? || env.mkdirOk) && env.countOk && env.writeOk ==> AddBlock(bc, folder, data, env, e, c).status.Appended?
  {
    var r := AddBlock(bc, folder, data, env, e, c);
    MirroredPreviousHash(bc.chain, Records(folder), c);
    AddBlockAppends(bc, folder, data, env, e, c);
    if r.status.Appended? {
      var b := r.chain.chain[|bc.chain|];
      assert r.chain.chain == bc.chain + [b];
      MirrorsExtend(bc.chain, Records(folder), c, b, c.encode(b).value);
    }
  }

  /** `add_block` keeps the chain mirrored, linked, numbered and well formed. */
  lemma AddBlockKeepsConsistent(bc: Blockchain, folder: Folder, data: string, env: Env, e: Engine, c: Codec)
    requires Consistent(bc, folder, e, c) && Sound(e) && Faithful(c)
    requires RewardDefined(bc.halvingInterval, |Records(folder)| + 1)
    ensures Consistent(AddBlock(bc, folder, data, env, e, c).chain, AddBlock(bc, folder, data, env, e, c).folder, e, c)
  {
    var r := AddBlock(bc, folder, data, env, e, c);
    AddBlockKeepsMirror(bc, folder, data, env, e, c);
    if r.status.Appended? {
      MirroredPreviousHash(bc.chain, Records(folder), c);
      AddBlockAppends(bc, folder, data, env, e, c);
      var b := r.chain.chain[|bc.chain|];
      assert r.chain == bc.(chain := bc.chain + [b]);
      LinkedExtend(bc.chain, b);
      NumberedExtend(bc, b);
      AllSelfConsistentExtend(e, bc.chain, b);
    }
  }

  /** One `add_block` request: the payload and the world it meets. */
  datatype Request = Request(data: string, env: Env)

  /** The chain and folder after handing each request to `add_block` in turn,
      ignoring the results as the command-line driver does. */
  function Run(bc: Blockchain, folder: Folder, requests: seq<Request>, e: Engine, c: Codec): (r: (Blockchain, Folder))
    requires |requests| > 0 ==> RewardDefined(bc.halvingInterval, |Records(folder)| + |requests|)
    ensures r.0.baseReward == bc.baseReward && r.0.halvingInterval == bc.halvingInterval
    ensures |r.0.chain| <= |bc.chain| + |requests|
    decreases |requests|
  {
    if |requests| == 0 then (bc, folder)
    else
      RewardDefinedDownward(bc.halvingInterval, |Records(folder)| + 1, |Records(folder)| + |requests|);
      var step := AddBlock(bc, folder, requests[0].data, requests[0].env, e, c);
      RewardDefinedAfterStep(bc.halvingInterval, |Records(folder)|, |Records(step.folder)|, |requests| - 1);
      Run(step.chain, step.folder, requests[1..], e, c)
  }

  /** `Run` is one `add_block` followed by the rest of the requests. */
  lemma RunStep(bc: Blockchain, folder: Folder, requests: seq<Request>, e: Engine, c: Codec)
    requires |requests| > 0 && RewardDefined(bc.halvingInterval, |Records(folder)| + |requests|)
    ensures RewardDefined(bc.halvingInterval, |Records(folder)| + 1)
    ensures |requests[1..]| > 0 ==>
              RewardDefined(AddBlock(bc, folder, requests[0].data, requests[0].env, e, c).chain.halvingInterval,
                            |Records(AddBlock(bc, folder, requests[0].data, requests[0].env, e, c).folder)| + |requests[1..]|)
    ensures Run(bc, folder, requests, e, c)
            == Run(AddBlock(bc, folder, requests[0].data, requests[0].env, e, c).chain,
                   AddBlock(bc, folder, requests[0].data, requests[0].env, e, c).folder, requests[1..], e, c)
  {
    RewardDefinedDownward(bc.halvingInterval, |Records(folder)| + 1, |Records(folder)| + |requests|);
    var step := AddBlock(bc, folder, requests[0].data, requests[0].env, e, c);
    RewardDefinedAfterStep(bc.halvingInterval, |Records(folder)|, |Records(step.folder)|, |requests| - 1);
  }
}

=== FILE: loading.dfy ===
/**
 `load_chain_from_disk`: reads records 1, 2, 3, ... up to the first
 missing number and deserialises each into a block.
 */
module Loading {
  import opened Numeric
  import opened Results
  import opened Blocks
  import opened Storage
  import opened Ledger

  /** No record 1, or the record with number `index` does not deserialise. */
  datatype LoadError = NoBlocksFound | DeserializeFailed(index: nat)

  /** The record numbers from `i` on that are still present. */
  function Above(records: map<nat, string>, i: nat): set<nat> {
    set k | k in records && k >= i
  }

  lemma AboveShrinks(records: map<nat, string>, i: nat)
    requires i in records
    ensures |Above(records, i + 1)| < |Above(records, i)|
  {
    assert Above(records, i) == Above(records, i + 1) + {i};
  }

  /** The blocks of the run of consecutive records starting at `i`, or the
      first record in that run that does not deserialise. */
  function ReadFrom(records: map<nat, string>, i: nat, c: Codec): (r: Result<seq<Block>, LoadError>)
    requires i >= 1
    ensures r.Ok? ==> && i + |r.value| !in records
                      && forall k :: i <= k < i + |r.value| ==>
                           k in records && c.decode(records[k]) == Some(r.value[k - i])
    ensures r.Err? ==> && r.error.DeserializeFailed?
                       && i <= r.error.index && r.error.index in records
                       && c.decode(records[r.error.index]).None?
                       && forall j :: i <= j < r.error.index ==> j in records && c.decode(records[j]).Some?
    decreases |Above(records, i)|
  {
    if i !in records then Ok([])
    else
      match c.decode(records[i])
      case None => Err(DeserializeFailed(i))
      case Some(b) =>
        AboveShrinks(records, i);
        match ReadFrom(records, i + 1, c)
        case Err(error) => Err(error)
        case Ok(rest) =>
          Ok([b] + rest)
  }

  /** The result of reading, from the first record on, as `load_chain_from_disk`
      reports it: at least one block, and the reward configuration copied
      unchanged. */
  function LoadChain(folder: Folder, baseReward: u64, halvingInterval: u64, c: Codec): (r: Result<Blockchain, LoadError>)
    ensures r == Err(NoBlocksFound) <==> 1 !in Records(folder)
    ensures r.Ok? ==> && r.value.baseReward == baseReward && r.value.halvingInterval == halvingInterval
                      && |r.value.chain| >= 1
                      && |r.value.chain| + 1 !in Records(folder)
                      && forall k :: 1 <= k <= |r.value.chain| ==>
                           k in Records(folder) && c.decode(Records(folder)[k]) == Some(r.value.chain[k - 1])
    ensures r.Err? && r.error.DeserializeFailed? ==>
              && r.error.index in Records(folder)
              && c.decode(Records(folder)[r.error.index]).None?
              && forall j :: 1 <= j < r.error.index ==> j in Records(folder) && c.decode(Records(folder)[j]).Some?
  {
    match ReadFrom(Records(folder), 1, c)
    case Err(error) => Err(error)
    case Ok(blocks) =>
      if |blocks| == 0 then Err(NoBlocksFound) else Ok(Blockchain(blocks, baseReward, halvingInterval))
  }

  function Prefixed(prefix: seq<Block>, r: Result<seq<Block>, LoadError>): Result<seq<Block>, LoadError> {
    match r
    case Ok(rest) => Ok(prefix + rest)
    case Err(error) => Err(error)
  }

  /** Reading from a record that deserialises puts its block in front of the
      rest. */
  lemma ReadFromStep(records: map<nat, string>, i: nat, c: Codec, b: Block)
    requires i >= 1 && i in records && c.decode(records[i]) == Some(b)
    ensures ReadFrom(records, i, c) == Prefixed([b], ReadFrom(records, i + 1, c))
  {
  }

  lemma PrefixedAppend(chain: seq<Block>, b: Block, r: Result<seq<Block>, LoadError>)
    ensures Prefixed(chain, Prefixed([b], r)) == Prefixed(chain + [b], r)
  {
    if r.Ok? {
      assert chain + ([b] + r.value) == chain + [b] + r.value;
    }
  }

  /** `load_chain_from_disk`: the loop over record numbers, stopping at the
      first missing one or the first record that does not deserialise. */
  method LoadChainFromDisk(folder: Folder, baseReward: u64, halvingInterval: u64, c: Codec)
    returns (r: Result<Blockchain, LoadError>)
    ensures r == LoadChain(folder, baseReward, halvingInterval, c)
  {
    var records := Records(folder);
    var chain: seq<Block> := [];
    var i := 1;
    assert Prefixed(chain, ReadFrom(records, i, c)) == ReadFrom(records, 1, c) by {
      if ReadFrom(records, 1, c).Ok? {
        assert [] + ReadFrom(records, 1, c).value == ReadFrom(records, 1, c).value;
      }
    }
    while i in records
      invariant i >= 1
      invariant ReadFrom(records, 1, c) == Prefixed(chain, ReadFrom(records, i, c))
      decreases |Above(records, i)|
    {
      match c.decode(records[i]) {
        case None =>
          return Err(DeserializeFailed(i));
        case Some(b) =>
          AboveShrinks(records, i);
          ReadFromStep(records, i, c, b);
          PrefixedAppend(chain, b, ReadFrom(records, i + 1, c));
          chain := chain + [b];
          i := i + 1;
      }
    }
    assert ReadFrom(records, 1, c) == Ok(chain) by {
      assert chain + [] == chain;
    }
    if |chain| == 0 {
      return Err(NoBlocksFound);
    }
    return Ok(Blockchain(chain, baseReward, halvingInterval));
  }

  lemma Uncons(s: seq<Block>, k: nat)
    requires k < |s|
    ensures s[k..] == [s[k]] + s[k + 1..]
  {
  }

  lemma {:induction false} ReadMirrored(chain: seq<Block>, records: map<nat, string>, c: Codec, i: nat)
    requires Mirrors(chain, records, c) && Faithful(c)
    requires 1 <= i <= |chain| + 1
    ensures ReadFrom(records, i, c) == Ok(chain[i - 1..])
    decreases |chain| + 1 - i
  {
    if i <= |chain| {
      assert i in records && c.decode(records[i]) == Some(chain[i - 1]) by {
        assert c.encode(chain[i - 1]) == Some(records[i]);
      }
      ReadFromStep(records, i, c, chain[i - 1]);
      ReadMirrored(chain, records, c, i + 1);
      Uncons(chain, i - 1);
    } else {
      assert i !in records;
      assert ReadFrom(records, i, c) == Ok([]);
      assert chain[i - 1..] == [];
    }
  }

  /** Loading a folder that mirrors a non-empty chain gives back that chain,
      block for block, with the configuration passed in. */
  lemma LoadAfterAppends(bc: Blockchain, folder: Folder, c: Codec)
    requires Mirrors(bc.chain, Records(folder), c) && Faithful(c)
    requires |bc.chain| > 0
    ensures LoadChain(folder, bc.baseReward, bc.halvingInterval, c) == Ok(bc)
  {
    ReadMirrored(bc.chain, Records(folder), c, 1);
  }

  lemma {:induction false} ReadAgreeing(r1: map<nat, string>, r2: map<nat, string>, c: Codec, g: nat, i: nat)
    requires 1 <= i <= g && g !in r1 && g !in r2
    requires forall j :: i <= j < g ==> (j in r1 <==> j in r2) && (j in r1 ==> r1[j] == r2[j])
    ensures ReadFrom(r1, i, c) == ReadFrom(r2, i, c)
    decreases g - i
  {
    if i < g && i in r1 {
      assert i in r2 && r1[i] == r2[i];
      ReadAgreeing(r1, r2, c, g, i + 1);
    } else {
      assert i !in r1 && i !in r2;
    }
  }

  /** Records after the first missing number are never read: two folders that
      agree up to a number missing from both load the same way. */
  lemma LoadIgnoresRecordsAfterGap(f1: Folder, f2: Folder, baseReward: u64, halvingInterval: u64, c: Codec, g: nat)
    requires g >= 1 && g !in Records(f1) && g !in Records(f2)
    requires forall j :: 1 <= j < g ==>
               && (j in Records(f1) <==> j in Records(f2))
               && (j in Records(f1) ==> Records(f1)[j] == Records(f2)[j])
    ensures LoadChain(f1, baseReward, halvingInterval, c) == LoadChain(f2, baseReward, halvingInterval, c)
  {
    ReadAgreeing(Records(f1), Records(f2), c, g, 1);
  }
}

=== FILE: numeric.dfy ===
/**
 Fixed-width integers, the right shift used by the reward schedule, and the
 decimal rendering that `format!("{}", x)` applies to integers.
 */
module Numeric {

  newtype u64 = x: int | 0 <= x < 0x1_0000_0000_0000_0000
  newtype i64 = x: int | -0x8000_0000_0000_0000 <= x < 0x8000_0000_0000_0000
  newtype byte = x: int | 0 <= x < 256

  function Pow2(k: nat): (r: nat)
    ensures r >= 1
  {
    if k == 0 then 1 else 2 * Pow2(k - 1)
  }

  /** `x >> k` on a `u64`. Rust panics when the shift amount reaches the
      bit width, so a shift of 64 or more is excluded. */
  function ShiftRight(x: u64, k: nat): (r: u64)
    requires k < 64
    ensures r <= x
  {
    var d := Pow2(k);
    DivBounded(x as int, d);
    (x as int / d) as u64
  }

  lemma DivBounded(a: nat, d: nat)
    requires d >= 1
    ensures 0 <= a / d <= a
  {
  }

  /** Dividing in two steps is dividing by the product. */
  lemma {:induction false} DivDiv(a: nat, b: nat, c: nat)
    requires b >= 1 && c >= 1
    ensures a / (b * c) == a / b / c
  {
    var q := a / b;
    var r := a % b;
    var q2 := q / c;
    var r2 := q % c;
    assert a == b * q + r;
    assert q == c * q2 + r2;
    assert a == (b * c) * q2 + (b * r2 + r) by {
      calc {
        a;
        b * (c * q2 + r2) + r;
        { MulDistributes(b, c * q2, r2); }
        b * (c * q2) + b * r2 + r;
        { MulAssociates(b, c, q2); }
        (b * c) * q2 + (b * r2 + r);
      }
    }
    assert 0 <= b * r2 + r < b * c by {
      MulMonotone(b, r2, c - 1);
      MulDistributes(b, c - 1, 1);
    }
    DivUnique(a, b * c, q2, b * r2 + r);
  }

  lemma MulDistributes(a: int, b: int, c: int)
    ensures a * (b + c) == a * b + a * c
  {
  }

  lemma MulAssociates(a: int, b: int, c: int)
    ensures a * (b * c) == (a * b) * c
  {
  }

  lemma MulMonotone(a: nat, b: nat, c: nat)
    requires b <= c
    ensures 0 <= a * b <= a * c
  {
  }

  /** A nonzero multiple of a positive `d` is at least `d` away from zero. */
  lemma MulSign(d: int, x: int)
    requires d >= 1
    ensures x >= 1 ==> d * x >= d
    ensures x <= -1 ==> d * x <= -d
  {
    if x >= 1 {
      MulMonotone(d, 1, x);
    } else if x <= -1 {
      MulMonotone(d, 1, -x);
      MulDistributes(d, x, -x);
    }
  }

  lemma DivUnique(a: int, d: int, q: int, r: int)
    requires d >= 1 && 0 <= r < d && a == d * q + r
    ensures a / d == q
  {
    var q', r' := a / d, a % d;
    assert a == d * q' + r';
    MulDistributes(d, q', -q);
    assert d * (q' - q) == r - r';
    MulSign(d, q' - q);
  }


  /** One more step of shifting halves the value again. */
  lemma ShiftRightStep(x: u64, k: nat)
    requires k + 1 < 64
    ensures ShiftRight(x, k + 1) == ShiftRight(x, k) / 2
  {
    DivDiv(x as int, Pow2(k), 2);
    assert Pow2(k + 1) == Pow2(k) * 2;
  }

  /** A larger shift never yields a larger value. */
  lemma {:induction false} ShiftRightAntitone(x: u64, a: nat, b: nat)
    requires a <= b < 64
    ensures ShiftRight(x, b) <= ShiftRight(x, a)
  {
    if a < b {
      ShiftRightAntitone(x, a, b - 1);
      ShiftRightStep(x, b - 1);
    }
  }

  /** Integer division is monotone in the dividend. */
  lemma DivMonotone(a: nat, b: nat, d: nat)
    requires a <= b && d >= 1
    ensures a / d <= b / d
  {
    assert d * (a / d) <= a && b < d * (b / d) + d;
    MulDistributes(d, a / d, -(b / d));
    MulSign(d, a / d - b / d);
  }


  predicate IsDigit(c: char) {
    '0' <= c <= '9'
  }

  function DigitChar(d: nat): (c: char)
    requires d < 10
    ensures IsDigit(c) && DigitValue(c) == d
  {
    ('0' as int + d) as char
  }

  function DigitValue(c: char): (d: nat)
    requires IsDigit(c)
    ensures d < 10
  {
    c as int - '0' as int
  }

  /** The decimal digits of `n`, most significant first, with no leading zero. */
  function DecimalDigits(n: nat): (s: string)
    ensures |s| >= 1
    ensures forall i :: 0 <= i < |s| ==> IsDigit(s[i])
    ensures |s| > 1 ==> s[0] != '0'
  {
    if n < 10 then [DigitChar(n)] else DecimalDigits(n / 10) + [DigitChar(n % 10)]
  }

  /** `format!("{}", x)` for a Rust integer: an optional minus sign and digits. */
  function Decimal(x: int): (s: string)
    ensures |s| >= 1
    ensures forall i :: 0 <= i < |s| ==> IsDigit(s[i]) || (i == 0 && s[i] == '-')
    ensures s[0] == '-' <==> x < 0
  {
    if x < 0 then "-" + DecimalDigits(-x) else DecimalDigits(x)
  }

  /** The number a string of decimal digits denotes. */
  function DigitsValue(s: string): nat
    requires forall i :: 0 <= i < |s| ==> IsDigit(s[i])
  {
    if |s| == 0 then 0 else 10 * DigitsValue(s[..|s| - 1]) + DigitValue(s[|s| - 1])
  }

  /** The integer an optional minus sign followed by digits denotes. */
  function ReadDecimal(s: string): int
    requires |s| >= 1
    requires forall i :: 0 <= i < |s| ==> IsDigit(s[i]) || (i == 0 && s[i] == '-')
  {
    if s[0] == '-' then
      var digits := s[1..];
      assert forall j :: 0 <= j < |digits| ==> IsDigit(digits[j]) by {
        forall j | 0 <= j < |digits|
          ensures IsDigit(digits[j])
        {
          assert digits[j] == s[j + 1];
        }
      }
      -(DigitsValue(digits) as int)
    else
      DigitsValue(s)
  }

  lemma {:induction false} DecimalDigitsRoundTrip(n: nat)
    ensures DigitsValue(DecimalDigits(n)) == n
  {
    var s := DecimalDigits(n);
    if n >= 10 {
      DecimalDigitsRoundTrip(n / 10);
      assert s[..|s| - 1] == DecimalDigits(n / 10);
    }
  }

  /** The decimal text of an integer reads back as that integer, so it
      determines the integer. */
  lemma DecimalRoundTrip(x: int)
    ensures ReadDecimal(Decimal(x)) == x
  {
    if x < 0 {
      DecimalDigitsRoundTrip(-x);
      assert Decimal(x)[1..] == DecimalDigits(-x);
    } else {
      DecimalDigitsRoundTrip(x);
    }
  }
}

=== FILE: properties.dfy ===
/**
 End-to-end facts about a ledger built by `add_block` calls from an empty
 block folder: it is linked, it validates, and it loads back unchanged.
 */
module Properties {
  import opened Numeric
  import opened Results
  import opened Crypto
  import opened Blocks
  import opened Rewards
  import opened Storage
  import opened Ledger
  import opened Validation
  import opened Loading

  /** Every request finds a creatable folder, a successful count and a
      successful write. */
  predicate AllSucceed(requests: seq<Request>) {
    forall k :: 0 <= k < |requests| ==> requests[k].env.mkdirOk && requests[k].env.countOk && requests[k].env.writeOk
  }

  lemma AllSucceedTail(requests: seq<Request>)
    requires AllSucceed(requests) && |requests| > 0
    ensures AllSucceed(requests[1..])
  {
    forall k | 0 <= k < |requests[1..]|
      ensures requests[1..][k].env.mkdirOk && requests[1..][k].env.countOk && requests[1..][k].env.writeOk
    {
      assert requests[1..][k] == requests[k + 1];
    }
  }

  /** A consistent chain over a folder that can be listed passes
      `validate_chain`. */
  lemma ConsistentAccepted(bc: Blockchain, folder: Folder, e: Engine, c: Codec)
    requires Consistent(bc, folder, e, c) && folder.Present?
    ensures Accepts(bc, folder, e)
  {
    forall i | 1 <= i < |bc.chain|
      ensures BlockChecks(e, bc.chain, i)
    {
      assert SelfConsistent(e, bc.chain[i]);
    }
  }

  /** Any sequence of `add_block` calls keeps the ledger consistent. */
  lemma {:induction false} RunKeepsConsistent(bc: Blockchain, folder: Folder, requests: seq<Request>, e: Engine, c: Codec)
    requires Consistent(bc, folder, e, c) && Sound(e) && Faithful(c)
    requires |requests| > 0 ==> RewardDefined(bc.halvingInterval, |Records(folder)| + |requests|)
    ensures Consistent(Run(bc, folder, requests, e, c).0, Run(bc, folder, requests, e, c).1, e, c)
    decreases |requests|
  {
    if |requests| > 0 {
      RunStep(bc, folder, requests, e, c);
      AddBlockKeepsConsistent(bc, folder, requests[0].data, requests[0].env, e, c);
      RunKeepsConsistent(AddBlock(bc, folder, requests[0].data, requests[0].env, e, c).chain,
                         AddBlock(bc, folder, requests[0].data, requests[0].env, e, c).folder, requests[1..], e, c);
    }
  }

  /** When every call succeeds, each adds exactly one block and the folder
      exists afterwards. */
  lemma {:induction false} RunAllSucceed(bc: Blockchain, folder: Folder, requests: seq<Request>, e: Engine, c: Codec)
    requires Mirrors(bc.chain, Records(folder), c) && Faithful(c)
    requires |requests| > 0 ==> RewardDefined(bc.halvingInterval, |Records(folder)| + |requests|)
    requires AllSucceed(requests)
    ensures |Run(bc, folder, requests, e, c).0.chain| == |bc.chain| + |requests|
    ensures folder.Present? || |requests| > 0 ==> Run(bc, folder, requests, e, c).1.Present?
    decreases |requests|
  {
    if |requests| > 0 {
      RunStep(bc, folder, requests, e, c);
      AddBlockKeepsMirror(bc, folder, requests[0].data, requests[0].env, e, c);
      AllSucceedTail(requests);
      RunAllSucceed(AddBlock(bc, folder, requests[0].data, requests[0].env, e, c).chain,
                    AddBlock(bc, folder, requests[0].data, requests[0].env, e, c).folder, requests[1..], e, c);
    }
  }

  /** Starting from `Blockchain::new` and a missing or empty block folder,
      after any sequence of `add_block` calls: the genesis block points at
      "0", every other block at its predecessor's block hash, block `i`
      carries number `i` and its scheduled reward, every block's digests and
      signature hold, `validate_chain` accepts whenever the folder exists,
      and `load_chain_from_disk` gives the same chain back. When every call
      succeeds there is one block per call. */
  lemma BuiltChainValidates(baseReward: u64, halvingInterval: u64, folder: Folder, requests: seq<Request>, e: Engine, c: Codec)
    requires Records(folder) == map[]
    requires Sound(e) && Faithful(c)
    requires |requests| > 0 ==> RewardDefined(halvingInterval, |requests|)
    ensures var (bc, f) := Run(New(baseReward, halvingInterval), folder, requests, e, c);
            && Linked(bc.chain)
            && Numbered(bc)
            && AllSelfConsistent(e, bc.chain)
            && (f.Present? ==> Accepts(bc, f, e))
            && (AllSucceed(requests) ==> |bc.chain| == |requests|)
            && (AllSucceed(requests) && |requests| > 0 ==> Accepts(bc, f, e))
            && (|bc.chain| > 0 ==> LoadChain(f, baseReward, halvingInterval, c) == Ok(bc))
  {
    var start := New(baseReward, halvingInterval);
    assert Consistent(start, folder, e, c);
    RunKeepsConsistent(start, folder, requests, e, c);
    if AllSucceed(requests) {
      RunAllSucceed(start, folder, requests, e, c);
    }
    var (bc, f) := Run(start, folder, requests, e, c);
    if f.Present? {
      ConsistentAccepted(bc, f, e, c);
    }
    if |bc.chain| > 0 {
      LoadAfterAppends(bc, f, c);
    }
  }
}

=== FILE: results.dfy ===
/** Optional values and results, standing in for Rust's `Option` and `Result`. */
module Results {

  datatype Option<+T> = None | Some(value: T)

  datatype Result<+T, +E> = Ok(value: T) | Err(error: E)
}

=== FILE: reward.dfy ===
/**
 The emission schedule: the base reward shifted right once per elapsed
 halving interval, `base >> (block_number / halving_interval)`.
 */
module Rewards {
  import opened Numeric

  /** The schedule is defined for a block number when the division and the
      shift both succeed: Rust panics on a zero interval and on a shift
      amount of 64 or more. */
  predicate RewardDefined(halvingInterval: u64, blockNumber: nat) {
    halvingInterval > 0 && blockNumber < 0x1_0000_0000_0000_0000
    && blockNumber / halvingInterval as int < 64
  }

  /** A schedule defined up to block `n` is defined for every earlier block. */
  lemma RewardDefinedDownward(halvingInterval: u64, m: nat, n: nat)
    requires m <= n && RewardDefined(halvingInterval, n)
    ensures RewardDefined(halvingInterval, m)
  {
    DivMonotone(m, n, halvingInterval as int);
  }

  /** After a step that adds at most one record, the remaining steps still
      stay within the schedule. */
  lemma RewardDefinedAfterStep(halvingInterval: u64, before: nat, after: nat, remaining: nat)
    requires after <= before + 1 && RewardDefined(halvingInterval, before + 1 + remaining)
    ensures remaining > 0 ==> RewardDefined(halvingInterval, after + remaining)
  {
    if remaining > 0 {
      RewardDefinedDownward(halvingInterval, after + remaining, before + 1 + remaining);
    }
  }

  /** `Blockchain::calculate_reward`. */
  function CalculateReward(baseReward: u64, halvingInterval: u64, blockNumber: u64): (r: u64)
    requires RewardDefined(halvingInterval, blockNumber as int)
    ensures r <= baseReward
    ensures blockNumber < halvingInterval ==> r == baseReward
  {
    var era := blockNumber as int / halvingInterval as int;
    assert blockNumber < halvingInterval ==> era == 0;
    ShiftRight(baseReward, era)
  }

  /** Every block of era `k` (block numbers `k*H .. k*H + H - 1`) gets the base
      reward shifted `k` times. Because numbering starts at 1, the first era
      holds only blocks `1 .. H-1` and block `H` already gets half. */
  lemma RewardInEra(baseReward: u64, halvingInterval: u64, blockNumber: u64, k: nat)
    requires halvingInterval > 0 && k < 64
    requires k * halvingInterval as int <= blockNumber as int < (k + 1) * halvingInterval as int
    ensures RewardDefined(halvingInterval, blockNumber as int)
    ensures CalculateReward(baseReward, halvingInterval, blockNumber) == ShiftRight(baseReward, k)
  {
    var h := halvingInterval as int;
    DivUnique(blockNumber as int, h, k, blockNumber as int - k * h);
  }

  /** Moving one interval further halves the reward (integer halving). */
  lemma RewardHalvesEachInterval(baseReward: u64, halvingInterval: u64, blockNumber: u64)
    requires RewardDefined(halvingInterval, blockNumber as int + halvingInterval as int)
    ensures RewardDefined(halvingInterval, blockNumber as int)
    ensures CalculateReward(baseReward, halvingInterval, (blockNumber as int + halvingInterval as int) as u64)
         == CalculateReward(baseReward, halvingInterval, blockNumber) / 2
  {
    var n, h := blockNumber as int, halvingInterval as int;
    DivUnique(n + h, h, n / h + 1, n % h);
    ShiftRightStep(baseReward, n / h);
  }

  /** Later blocks never earn more than earlier ones. */
  lemma RewardNonIncreasing(baseReward: u64, halvingInterval: u64, m: u64, n: u64)
    requires m <= n && RewardDefined(halvingInterval, n as int)
    ensures RewardDefined(halvingInterval, m as int)
    ensures CalculateReward(baseReward, halvingInterval, n) <= CalculateReward(baseReward, halvingInterval, m)
  {
    DivMonotone(m as int, n as int, halvingInterval as int);
    ShiftRightAntitone(baseReward, (m / halvingInterval) as nat, (n / halvingInterval) as nat);
  }

  /** Base 50 with an interval of 2: blocks 1 to 5 earn 50, 25, 25, 12, 12. */
  lemma RewardScenario()
    ensures CalculateReward(50, 2, 1) == 50
    ensures CalculateReward(50, 2, 2) == 25
    ensures CalculateReward(50, 2, 3) == 25
    ensures CalculateReward(50, 2, 4) == 12
    ensures CalculateReward(50, 2, 5) == 12
  {
    assert Pow2(1) == 2 && Pow2(2) == 4;
  }
}

=== FILE: storage.dfy ===
/**
 The block folder: one serialised record per block, named by its 1-based
 number. The folder itself may be missing. Serialisation is a parameter.
 */
module Storage {
  import opened Results
  import opened Blocks

  /** The block folder: missing, or present with the text of each numbered
      record file. Only numbered records are ever in it, so the number of
      files is the number of records. */
  datatype Folder = Absent | Present(records: map<nat, string>)

  function Records(f: Folder): map<nat, string> {
    if f.Absent? then map[] else f.records
  }

  /** The JSON layer. `encode` is `serde_json::to_string` on a block,
      `decode` is `serde_json::from_str` into a block, and `blockHashField`
      parses any JSON text and reads its string field `block_hash`. */
  datatype Codec = Codec(
    encode: Block -> Option<string>,
    decode: string -> Option<Block>,
    blockHashField: string -> Option<string>)

  /** Serialising a block succeeds, and reading the text back gives the
      block and its `block_hash` field. */
  ghost predicate Faithful(c: Codec) {
    forall b :: c.encode(b).Some? && c.decode(c.encode(b).value) == Some(b)
                && c.blockHashField(c.encode(b).value) == Some(b.blockHash)
  }

  /** `get_block_hash_from_file` for record `index` of a present folder: the
      sentinel "0" when the folder holds no file at all, otherwise the
      `block_hash` field of that record, and `None` when the record is
      missing or unreadable. */
  function PreviousHash(records: map<nat, string>, index: nat, c: Codec): (r: Option<string>)
    ensures records == map[] ==> r == Some("0")
    ensures records != map[] && index in records ==> r == c.blockHashField(records[index])
    ensures records != map[] && index !in records ==> r.None?
  {
    if |records| == 0 then Some("0")
    else if index in records then c.blockHashField(records[index])
    else None
  }

  /** The record numbers `1 .. n`. */
  function Positions(n: nat): (s: set<nat>)
    ensures forall k :: k in s <==> 1 <= k <= n
    ensures |s| == n
  {
    if n == 0 then {} else Positions(n - 1) + {n}
  }
}

=== FILE: validation.dfy ===
/**
 `validate_chain`: which chains it accepts, and which alterations of an
 accepted chain it notices.
 */
module Validation {
  import opened Numeric
  import opened Crypto
  import opened Blocks
  import opened Storage
  import opened Ledger

  /** The three checks made on block `i`: it links to its predecessor's
      stored block hash, its content hash recomputes, and its signature
      verifies. */
  predicate BlockChecks(e: Engine, chain: seq<Block>, i: nat)
    requires 1 <= i < |chain|
  {
    && chain[i].previousHash == chain[i - 1].blockHash
    && ContentHashHolds(e, chain[i])
    && SignatureHolds(e, chain[i])
  }

  /** What `validate_chain` answers: `false` when the folder cannot be
      listed, `true` when it holds no file whatever the chain is, and
      otherwise whether every block from the second on passes its checks.
      The genesis block, every `block_hash` and every `block_number` go
      unchecked. */
  predicate Accepts(bc: Blockchain, folder: Folder, e: Engine) {
    && folder.Present?
    && (|folder.records| == 0 || forall i :: 1 <= i < |bc.chain| ==> BlockChecks(e, bc.chain, i))
  }

  /** `validate_chain`: walks the chain from its second block and stops at
      the first failed check. */
  method ValidateChain(bc: Blockchain, folder: Folder, e: Engine) returns (valid: bool)
    ensures valid == Accepts(bc, folder, e)
  {
    if folder.Absent? {
      return false;
    }
    if |folder.records| == 0 {
      return true;
    }
    var chain := bc.chain;
    var i := 1;
    while i < |chain|
      invariant 1 <= i
      invariant forall j :: 1 <= j < i && j < |chain| ==> BlockChecks(e, chain, j)
    {
      var block := chain[i];
      if block.previousHash != chain[i - 1].blockHash {
        assert !BlockChecks(e, chain, i);
        return false;
      }
      var contentHash := e.digest(ContentsOf(block));
      if contentHash != block.contentHash {
        assert !BlockChecks(e, chain, i);
        return false;
      }
      if !e.verify(block.publicKey, block.contentHash, block.signature) {
        assert !BlockChecks(e, chain, i);
        return false;
      }
      i := i + 1;
    }
    return true;
  }

  /** An empty folder makes any chain, however inconsistent, valid. */
  lemma EmptyFolderAcceptsAnyChain(bc: Blockchain, e: Engine)
    ensures Accepts(bc, Present(map[]), e)
  {
  }

  /** Replacing the genesis block by any block with the same block hash
      keeps an accepted chain accepted: its data, previous hash, content
      hash and signature are never looked at. */
  lemma GenesisUnchecked(bc: Blockchain, folder: Folder, e: Engine, b: Block)
    requires Accepts(bc, folder, e) && |bc.chain| > 0
    requires b.blockHash == bc.chain[0].blockHash
    ensures Accepts(bc.(chain := bc.chain[0 := b]), folder, e)
  {
    var chain := bc.chain[0 := b];
    if |folder.records| > 0 {
      forall i | 1 <= i < |chain|
        ensures BlockChecks(e, chain, i)
      {
        assert BlockChecks(e, bc.chain, i);
      }
    }
  }

  /** The stored block hash of the last block is never recomputed, so it can
      be replaced by anything. */
  lemma TipBlockHashUnchecked(bc: Blockchain, folder: Folder, e: Engine, h: string)
    requires Accepts(bc, folder, e) && |bc.chain| > 0
    ensures var last := |bc.chain| - 1;
            Accepts(bc.(chain := bc.chain[last := bc.chain[last].(blockHash := h)]), folder, e)
  {
    var last := |bc.chain| - 1;
    var chain := bc.chain[last := bc.chain[last].(blockHash := h)];
    if |folder.records| > 0 {
      forall i | 1 <= i < |chain|
        ensures BlockChecks(e, chain, i)
      {
        assert BlockChecks(e, bc.chain, i);
      }
    }
  }

  /** Changing the previous hash of any block after the genesis block is
      noticed. */
  lemma AlteredLinkRejected(bc: Blockchain, folder: Folder, e: Engine, i: nat, p: string)
    requires Accepts(bc, folder, e) && |folder.records| > 0
    requires 1 <= i < |bc.chain| && p != bc.chain[i].previousHash
    ensures !Accepts(bc.(chain := bc.chain[i := bc.chain[i].(previousHash := p)]), folder, e)
  {
    var chain := bc.chain[i := bc.chain[i].(previousHash := p)];
    assert BlockChecks(e, bc.chain, i);
    assert !BlockChecks(e, chain, i);
  }

  /** Changing the stored content hash of any block after the genesis block
      is noticed. */
  lemma AlteredContentHashRejected(bc: Blockchain, folder: Folder, e: Engine, i: nat, h: string)
    requires Accepts(bc, folder, e) && |folder.records| > 0
    requires 1 <= i < |bc.chain| && h != bc.chain[i].contentHash
    ensures !Accepts(bc.(chain := bc.chain[i := bc.chain[i].(contentHash := h)]), folder, e)
  {
    var chain := bc.chain[i := bc.chain[i].(contentHash := h)];
    assert BlockChecks(e, bc.chain, i);
    assert ContentsOf(chain[i]) == ContentsOf(bc.chain[i]);
    assert !BlockChecks(e, chain, i);
  }

  /** Changing the data of any block after the genesis block goes unnoticed
      only if the digest maps two different content strings to the same
      value. */
  lemma AlteredDataNeedsCollision(bc: Blockchain, folder: Folder, e: Engine, i: nat, d: string)
    requires Accepts(bc, folder, e) && |folder.records| > 0
    requires 1 <= i < |bc.chain| && d != bc.chain[i].data
    requires Accepts(bc.(chain := bc.chain[i := bc.chain[i].(data := d)]), folder, e)
    ensures var b := bc.chain[i];
            && ContentsOf(b) != ContentsOf(b.(data := d))
            && e.digest(ContentsOf(b)) == e.digest(ContentsOf(b.(data := d)))
  {
    var b := bc.chain[i];
    var chain := bc.chain[i := b.(data := d)];
    assert BlockChecks(e, bc.chain, i);
    assert BlockChecks(e, chain, i);
    if ContentsOf(b) == ContentsOf(b.(data := d)) {
      ContentsDetermineData(b.timestamp, b.data, d, b.previousHash, b.blockNumber, b.reward);
    }
  }

  /** Changing the stored block hash of any block but the last is noticed,
      through the next block's link. */
  lemma AlteredInnerBlockHashRejected(bc: Blockchain, folder: Folder, e: Engine, i: nat, h: string)
    requires Accepts(bc, folder, e) && |folder.records| > 0
    requires i + 1 < |bc.chain| && h != bc.chain[i].blockHash
    ensures !Accepts(bc.(chain := bc.chain[i := bc.chain[i].(blockHash := h)]), folder, e)
  {
    var chain := bc.chain[i := bc.chain[i].(blockHash := h)];
    assert BlockChecks(e, bc.chain, i + 1);
    assert chain[i + 1] == bc.chain[i + 1];
    assert !BlockChecks(e, chain, i + 1);
  }

  /** Changing the block number of any block after the genesis block goes
      unnoticed only if the digest maps two different content strings to the
      same value. */
  lemma AlteredNumberNeedsCollision(bc: Blockchain, folder: Folder, e: Engine, i: nat, n: u64)
    requires Accepts(bc, folder, e) && |folder.records| > 0
    requires 1 <= i < |bc.chain| && n != bc.chain[i].blockNumber
    requires Accepts(bc.(chain := bc.chain[i := bc.chain[i].(blockNumber := n)]), folder, e)
    ensures var b := bc.chain[i];
            && ContentsOf(b) != ContentsOf(b.(blockNumber := n))
            && e.digest(ContentsOf(b)) == e.digest(ContentsOf(b.(blockNumber := n)))
  {
    var b := bc.chain[i];
    var chain := bc.chain[i := b.(blockNumber := n)];
    assert BlockChecks(e, bc.chain, i);
    assert BlockChecks(e, chain, i);
    if ContentsOf(b) == ContentsOf(b.(blockNumber := n)) {
      ContentsDetermineNumber(b.timestamp, b.data, b.previousHash, b.blockNumber, n, b.reward);
    }
  }
}
